=== FILE: README.md ===
# grow_log records core in Dafny

This project models the logic of the `records` app of grow_log, a Django
diary for plant growth runs. A *cycle* is one growth run. A *log* is one
dated entry of a cycle's environmental readings: phase, day and night
temperature and humidity, pH, EC, irrigation, light height and power,
carbon dioxide, calibration and comment. *Nutrients* are a catalogue, and
*nutrient logs* record doses given at a log. Four pieces of behaviour are
modelled:

- **Day-in-phase numbering.** `Log.__str__` labels a log with its cycle's
  name, its phase and its 1-based position among the logs of the same cycle
  and phase. The position is taken in the default order of logs.
- **The default order of logs.** Logs sort by phase rank (seedling 1,
  vegetative 2, bloom 3), then by date, then by id.
- **The vegetative day-temperature average.** It averages the non-null
  `temperature_day` of a cycle's vegetative logs, and is `None` when there
  are none.
- **The next-log prefill.** `create_log` builds the initial data of a new
  log from the cycle's last log. `fill_log_without_prompt` creates a log
  from such a dictionary.

## Modelling choices

The log table is a `seq<Log>` holding the rows in any order. A query is
`Seqs.Filter` followed by `LogOrdering.OrderBy`, an insertion sort on the
default ordering key. Nullable columns are `Option`s. Temperatures, pH and
EC are `real`, so the average is exact. Dates are day numbers. Ids are
unbounded naturals, and `Models.UniqueIds` states that they are primary keys: no two
positions of the table hold the same id.

Python's `list.index` compares model instances by primary key, so
`PhaseDay.IndexOf` searches by id. The dictionary keys of `initial_data`
are the datatype `Prefill.Key`, one constructor per column name; `KeyName`
spells them as in the source. Creation time is the `today` parameter, and
a new row's id is one more than the largest stored id.

`records/models.py` declares neither a `date` nor a `carbon_dioxide` field
on `Log`, nor any ordering. The model takes the date field from
records/migrations/0023_alter_nutrientlog_options_log_date_and_more.py and
the ordering from records/migrations/0024_alter_log_options_remove_cycle_beginning_phase.py.
The carbon dioxide column is the one `create_log` reads.

## Model

| member | source | states |
|---|---|---|
| Seqs.Filter | records/models.py:40 | the selected rows are exactly the rows of the table that satisfy the filter, in table order, and no more of them than the table has |
| LogOrdering.PhaseRank | records/migrations/0024_alter_log_options_remove_cycle_beginning_phase.py:15 | the `Case`/`When` rank of a phase; its values are stated by `LogOrdering.PhaseRanks` |
| LogOrdering.Before | records/migrations/0024_alter_log_options_remove_cycle_beginning_phase.py:15 | the ordering key compared lexicographically; `LogOrdering.EarlierPhaseFirst`, `EarlierDateFirst`, `LowerIdFirst` and `BeforeIsStrictTotalOrder` state its behaviour |
| LogOrdering.PhaseRanks | records/migrations/0024_alter_log_options_remove_cycle_beginning_phase.py:15 | seedling ranks 1, vegetative 2, bloom 3, and different phases have different ranks |
| LogOrdering.EarlierPhaseFirst | records/migrations/0024_alter_log_options_remove_cycle_beginning_phase.py:15 | a seedling log sorts before every vegetative or bloom log, and a vegetative log before every bloom log, whatever their dates and ids |
| LogOrdering.EarlierDateFirst | records/migrations/0024_alter_log_options_remove_cycle_beginning_phase.py:15 | within one phase the earlier date sorts first, whatever the ids |
| LogOrdering.LowerIdFirst | records/migrations/0024_alter_log_options_remove_cycle_beginning_phase.py:15 | within one phase and date the lower id sorts first |
| LogOrdering.BeforeIsStrictTotalOrder | records/migrations/0024_alter_log_options_remove_cycle_beginning_phase.py:15 | the order is irreflexive, asymmetric and transitive, relates any two logs with different ids, and ties only logs that share id, date and phase |
| LogOrdering.Insert | records/migrations/0024_alter_log_options_remove_cycle_beginning_phase.py:15 | inserting a log into an ordered sequence keeps it ordered and adds exactly that log |
| LogOrdering.OrderBy | records/migrations/0024_alter_log_options_remove_cycle_beginning_phase.py:15 | the query result is in the default order and is a permutation of the selected rows |
| LogOrdering.OrderByKeepsRows | records/migrations/0024_alter_log_options_remove_cycle_beginning_phase.py:15 | ordering neither adds nor drops a row |
| LogOrdering.SortedPermutationsAgree | records/migrations/0024_alter_log_options_remove_cycle_beginning_phase.py:15 | with unique ids, two ordered arrangements of the same rows are identical |
| LogOrdering.OrderIsDeterministic | records/migrations/0024_alter_log_options_remove_cycle_beginning_phase.py:15 | with unique ids, the ordered result does not depend on the order the rows were stored in |
| LogOrdering.LastIsGreatest | records/views.py:177 | the last row of an ordered sequence sorts after or ties every row in it |
| PhaseDay.SeriesLogs | records/models.py:40 | the query for a cycle and phase returns the stored logs of that cycle and phase, each as often as it is stored, in the default order |
| PhaseDay.IndexOf | records/models.py:41 | the index found holds a row with the searched primary key and is the first such index |
| PhaseDay.DayInPhase | records/models.py:39-41 | a stored log's day number is at least 1 and at most the number of logs of its cycle and phase, and the row at that position is the log's first row |
| PhaseDay.LogLabel | records/models.py:39-42 | `Log.__str__` of a stored log; its parts are stated by `PhaseDay.LogLabelParts` and its day number by `PhaseDay.DayInPhase` and the lemmas about it |
| PhaseDay.ShowLog | records/models.py:42 | the f-string joining cycle name, phase and day; `PhaseDay.LogLabelParts` and `PhaseDay.ExampleLabel` state what it produces |
| PhaseDay.LogLabelParts | records/models.py:42 | the label is the cycle's name, which is the cycle's own label, then ` - `, the phase, ` - Day `, and then exactly the decimal digits of the day number, which read back unchanged |
| PhaseDay.DayInPhaseCountsEarlierLogs | records/models.py:40-41 | a log's day number is one more than the number of logs of its cycle and phase that sort before it |
| PhaseDay.FirstOfSeriesIsDayOne | records/models.py:40-41 | a log that no log of its cycle and phase sorts before is day 1, so numbering restarts in every phase |
| PhaseDay.DayInPhaseIgnoresOtherSeries | records/models.py:40 | adding a log of another cycle or another phase anywhere in the table changes no day number |
| PhaseDay.DayInPhaseDistinct | records/models.py:41 | different logs of one cycle and phase have different day numbers |
| PhaseDay.DayInPhaseFollowsOrder | records/migrations/0024_alter_log_options_remove_cycle_beginning_phase.py:15 | within a cycle and phase, the log that sorts first has the lower day number, so a later log of the same date comes after |
| PhaseDay.DayInPhaseIgnoresStorageOrder | records/models.py:40 | day numbers depend on which logs are stored, not on the order the table keeps them in |
| PhaseDay.CreationOrderExample | records/tests/test_models.py:187-190 | for vegetative, bloom and vegetative logs created in turn on one day, plus a log of another cycle, the days are 1, 1 and 2, and the third label is `<name> - vegetative - Day 2` |
| PhaseDay.ExampleLabel | records/models.py:42 | the label of day 2 of the vegetative phase is the literal `<name> - vegetative - Day 2` |
| Models.PhaseNamesDistinct | records/models.py:18-22 | the three phase choices are told apart by their stored names |
| Models.NutrientLogLabel | records/models.py:60-61 | `NutrientLog.__str__`; its parts and the read-back of the concentration are stated by `Models.NutrientLogLabelParts` |
| Models.UniqueIdsPermutation | records/migrations/0024_alter_log_options_remove_cycle_beginning_phase.py:15 | rearranging a table with unique primary keys keeps them unique, which the ordering of query results relies on |
| Models.NutrientLogLabelParts | records/models.py:60-61 | a dose label is the nutrient's label, which is its name, then ` - `, and then exactly `str` of the concentration, which reads back unchanged whatever the name holds |
| Decimal.NatToString | records/models.py:42 | `str` of a natural number is a non-empty string of digits without a leading zero |
| Decimal.NatToStringRoundTrip | records/models.py:42 | the digits of `str(n)` denote `n` |
| Decimal.IntToString | records/models.py:61 | `str` of an int starts with a minus sign exactly when the int is negative and is digits after it, without a leading zero; the `str` of a non-negative int is all digits |
| Decimal.NatLabelRoundTrip | records/models.py:42 | a number printed after a non-digit is exactly the number that ends the string |
| Decimal.IntLabelRoundTrip | records/models.py:61 | an int printed after a non-digit that is not a minus sign, negative or not, is exactly the int that ends the string |
| Averages.VegDayTemps | records/utils.py:6-7 | the averaged values are exactly the day temperatures of the cycle's vegetative logs that have one |
| Averages.VegDayTempsMatchRows | records/utils.py:6-9 | there is one averaged value per qualifying row, in table order, and it is that row's day temperature, so repeated temperatures are kept |
| Averages.AverageVegDayTemp | records/utils.py:5-12 | the result is `None` exactly when the cycle has no vegetative log with a day temperature; otherwise it is the sum of their temperatures divided by the number of such rows, and lies between the smallest and the largest of them |
| Averages.AverageAfterQualifyingLog | records/utils.py:9 | storing one more qualifying log at temperature `x` turns an average `m` over `n` rows into `(n * m + x) / (n + 1)`, and turns no average into `x` |
| Averages.MeanAppend | records/utils.py:9 | the mean of the values with `x` appended is `x` alone for no values and otherwise the old mean folded with `x` |
| Averages.MeanWithinRange | records/utils.py:9 | the mean of a non-empty sequence lies between its minimum and its maximum |
| Averages.SumPermutation | records/utils.py:9 | rearranging the values does not change their sum |
| Averages.AverageIgnoresNonQualifying | records/utils.py:6-7 | adding a log of another cycle, of another phase or without a day temperature leaves the average unchanged |
| Averages.AverageIgnoresStorageOrder | records/utils.py:9 | the average does not depend on the order the table keeps the logs in |
| Averages.ThreeLogAverageExample | records/tests/test_utils.py:9-21 | vegetative logs at 20 and at no temperature plus a bloom log at 25 average to 20, and a cycle without logs gives `None` |
| Prefill.KeyNamesDistinct | records/views.py:192-206 | different dictionary keys are spelt differently, so keying the dictionary by a datatype loses nothing |
| Prefill.ParsePhase | records/models.py:18-25 | a stored phase string denotes a phase exactly when it is that phase's name |
| Prefill.ParsePhaseName | records/models.py:18-25 | parsing a phase's stored name gives the phase back |
| Prefill.MaxId | records/utils.py:16 | the value is at least every stored id and, in a non-empty table, is one of them |
| Prefill.NextId | records/utils.py:16 | the id of a created row is greater than every stored id |
| Prefill.FillLogWithoutPrompt | records/utils.py:15-31 | creation fails exactly when `phase` is missing or `None`; otherwise it appends one log of the given cycle, dated today, with a fresh id, no image and no carbon dioxide reading, and ids stay unique |
| Prefill.FillReadsEveryKey | records/utils.py:18-30 | each column of the created log holds its key's value: the phase the `phase` text names, a float column the number or the int widened to a float, the integer, text and boolean columns the value as given, and `None` for a missing key |
| Prefill.FilledLog | records/utils.py:16-31 | the row `Log.objects.create` builds; `Prefill.FillReadsEveryKey` and `Prefill.FilledLogLeavesAbsentEmpty` state its columns |
| Prefill.RealAt | records/utils.py:19-24 | `initial_data.get` for a float column; `Prefill.FillReadsEveryKey` states what it reads |
| Prefill.IntAt | records/utils.py:21-27 | `initial_data.get` for an integer column; `Prefill.FillReadsEveryKey` states what it reads |
| Prefill.TextAt | records/utils.py:25-30 | `initial_data.get` for a text column; `Prefill.FillReadsEveryKey` states what it reads |
| Prefill.FlagAt | records/utils.py:28 | `initial_data.get('calibration')`; `Prefill.FillReadsEveryKey` states what it reads |
| Prefill.PhaseAt | records/utils.py:18 | `initial_data.get('phase')`; `Prefill.FillLogWithoutPrompt` and `Prefill.FillReadsEveryKey` state when it is missing and which phase it names |
| Prefill.MissingKeysLeaveColumnsEmpty | records/utils.py:18-30 | each column the fill reads is `None` exactly when its key is missing or holds `None`, including calibration, whose column default is not applied |
| Prefill.FilledLogLeavesAbsentEmpty | records/utils.py:19-30 | the created row's read columns are empty exactly when their keys are absent |
| Prefill.LastLog | records/views.py:177 | there is no last log exactly when the cycle has no log; otherwise it is a stored log of the cycle that sorts after or ties every log of the cycle |
| Prefill.CycleLogsOrdered | records/views.py:177 | the cycle's ordered logs are exactly its stored logs, and the last of them sorts after or ties all the others |
| Prefill.CreateLogInitialData | records/views.py:191-212 | there is no prefill exactly when the cycle has no log; a prefill suits the columns, sets calibration to False and the comment to empty, and has no image key |
| Prefill.CreateLogCopiesLastLog | records/views.py:177-206 | the prefill has the thirteen keys of the source, and reading it back gives the cycle's last log's phase and readings, with calibration False and an empty comment; the carbon dioxide entry is the last log's reading, `None` when it has none |
| Prefill.PrefillValue | records/views.py:193-205 | the value `create_log` gives one key; each suits its column (`Prefill.PrefillValueFits`) and reads back as the last log's value (`Prefill.CreateLogCopiesLastLog`) |
| Prefill.PrefillFrom | records/views.py:192-206 | the `initial_data` dictionary built from a log; `Prefill.PrefillFits` and the `PrefillReadsBack` lemmas state its keys and contents |
| Prefill.PrefillFits | records/views.py:192-206 | the prefilled dictionary suits the columns, forces calibration off and the comment empty, and has exactly the thirteen keys of the source |
| Prefill.PrefillReadsBack | records/views.py:193-199 | the prefill carries the last log's phase, day and night temperature, pH and EC unchanged |
| Prefill.PrefillReadsBackCounts | records/views.py:196-204 | the prefill carries the last log's day and night humidity, light height and power, and carbon dioxide reading unchanged, the carbon dioxide entry being `None` exactly when the last log has no reading |
| Prefill.PrefillReadsBackRest | records/views.py:200-205 | the prefill carries the last log's irrigation, sets calibration to False and the comment to empty |
| Prefill.FillFromPrefillCopiesReadings | records/views.py:192-206 | a log created from the prefill has the last log's phase and readings, calibration False, an empty comment, and neither image nor carbon dioxide reading |
| Prefill.FilledLogBecomesLast | records/views.py:177 | a log created from the prefill on a day no earlier than the last log becomes the cycle's last log |
| Prefill.AppendedGreatestBecomesLast | records/views.py:177 | a stored log of the cycle that sorts after all the cycle's other logs is its last log |

## Left out

- HTTP handling, redirects, flash messages, templates, forms and URL routing are not modelled. They are framework plumbing around the logic above.
- ORM persistence, cascade deletes and the database-side `Avg` aggregate are replaced by an in-memory sequence, a filter and an exact mean.
- Floating-point rounding is not modelled: temperatures, pH and EC are `real`.
- Field length and choice validation (`full_clean`) is not modelled. A phase string outside the three choices is outside the model, since its ordering rank would be a NULL whose place depends on the database.
- Creation time is not computed: the date is a `today` parameter.
- Prefill.NextId: the auto-increment key is idealised as one more than the largest stored id. A database sequence may hand out a larger id, for example after deletions. The model relies only on the new id being greater than every stored id, which holds either way.
- PhaseDay.DayInPhase: a log whose cycle and phase query lacks its primary key makes `list.index` raise `ValueError`. The model requires the key to be present (`Stored`) instead of modelling the exception.
- Prefill.FillLogWithoutPrompt: the source also passes `water=` from records/utils.py:29. `Log` has no such field, so Django would reject the call. The model treats the log as the record with the listed columns and ignores that argument.
- Prefill.FillLogWithoutPrompt: values of the wrong type for a column are excluded by the precondition `FitsColumns` rather than modelled as database errors.
- The prefill is connected here to `fill_log_without_prompt`. The view itself calls `fill_and_submit_log_form`, which records/views.py:9 imports from records/utils.py, but records/utils.py does not define it; it is not part of this model.
- The POST branch of `create_log`, which saves a submitted form, is not modelled.
- Tests that expect behaviour absent from the code are not modelled: the label `Cycle 1 - day 1`, `get_day_in_cycle`, quarter and year cycle labels, reservoir logs, and merging on save. Only the positions of records/tests/test_models.py:187-190 agree with `Log.__str__`; that test calls `get_phase_day_in_cycle`, which records/models.py does not define either, and the example states its expected positions through `Log.__str__`'s day numbering instead. That test names its second log's phase `flowering`, which the example replaces with the bloom choice.
- Cycle and nutrient labels are their names (`Models.CycleLabel`, `Models.NutrientLabel`). They are stated inside `PhaseDay.LogLabelParts` and `Models.NutrientLogLabelParts`, not in members of their own.

=== FILE: averages.dfy ===
/**
 `calculate_average_veg_day_temp`: the mean day temperature over the
 vegetative logs of one cycle, leaving out logs with no day temperature,
 and `None` when no log qualifies. Temperatures are idealised as `real`,
 so the mean is exact.
 */
module Averages {
  import opened Options
  import opened Models
  import opened Seqs

  /** The log is one of `cycle`'s vegetative logs and records a day temperature. */
  predicate Qualifies(l: Log, cycle: Cycle) {
    l.cycle.id == cycle.id && l.phase == Vegetative && l.temperatureDay.Some?
  }

  /** `Qualifies` as a filter over the log table. */
  function QualifyingIn(cycle: Cycle): Log -> bool {
    (l: Log) => Qualifies(l, cycle)
  }

  /** The day temperatures the aggregate runs over, in table order: one per
      qualifying row, repeated values kept. */
  function VegDayTemps(store: seq<Log>, cycle: Cycle): (t: seq<real>)
    ensures |t| <= |store|
    ensures forall x :: x in t <==> exists l :: l in store && Qualifies(l, cycle) && l.temperatureDay == Some(x)
    decreases |store|
  {
    if store == [] then []
    else
      var rest := VegDayTemps(store[1..], cycle);
      assert forall l :: l in store <==> l == store[0] || l in store[1..];
      var l := store[0];
      if Qualifies(l, cycle) then [l.temperatureDay.value] + rest else rest
  }

  /** The temperatures are those of the qualifying rows, one per row, in
      table order. */
  lemma {:induction false} VegDayTempsMatchRows(store: seq<Log>, cycle: Cycle)
    ensures var t, f := VegDayTemps(store, cycle), Filter(store, QualifyingIn(cycle));
            |t| == |f| && forall i :: 0 <= i < |t| ==> f[i].temperatureDay == Some(t[i])
    decreases |store|
  {
    if store != [] {
      VegDayTempsMatchRows(store[1..], cycle);
      var l := store[0];
      var rest, f := VegDayTemps(store[1..], cycle), Filter(store[1..], QualifyingIn(cycle));
      var t, g := VegDayTemps(store, cycle), Filter(store, QualifyingIn(cycle));
      if Qualifies(l, cycle) {
        assert t == [l.temperatureDay.value] + rest;
        assert g == [l] + f;
        forall i | 0 <= i < |t|
          ensures g[i].temperatureDay == Some(t[i])
        {
          if i > 0 {
            assert t[i] == rest[i - 1] && g[i] == f[i - 1];
          }
        }
      } else {
        assert t == rest;
        assert g == f;
      }
    }
  }

  function Sum(s: seq<real>): real
    decreases |s|
  {
    if s == [] then 0.0 else s[0] + Sum(s[1..])
  }

  /** The arithmetic mean, `None` for no values. */
  function Mean(t: seq<real>): Option<real> {
    if t == [] then None else Some(Sum(t) / |t| as real)
  }

  /** The value of the `Avg` aggregate, or `None` when no row is left to average. */
  function AverageVegDayTemp(store: seq<Log>, cycle: Cycle): (r: Option<real>)
    ensures r.None? <==> forall l :: l in store ==> !Qualifies(l, cycle)
    ensures r.Some? ==> exists l :: l in store && Qualifies(l, cycle) && l.temperatureDay.value <= r.value
    ensures r.Some? ==> exists l :: l in store && Qualifies(l, cycle) && r.value <= l.temperatureDay.value
    ensures r.Some? ==> r.value == Sum(VegDayTemps(store, cycle)) / |Filter(store, QualifyingIn(cycle))| as real
  {
    var temps := VegDayTemps(store, cycle);
    if temps == [] then
      assert forall l :: l in store && Qualifies(l, cycle) ==> l.temperatureDay.value in temps;
      None
    else
      VegDayTempsMatchRows(store, cycle);
      MeanWithinRange(temps);
      assert temps[MinIndex(temps)] in temps && temps[MaxIndex(temps)] in temps;
      Mean(temps)
  }

  /** The mean of a non-empty sequence lies between its least and its greatest element. */
  lemma MeanWithinRange(s: seq<real>)
    requires s != []
    ensures s[MinIndex(s)] <= Sum(s) / |s| as real <= s[MaxIndex(s)]
  {
    var lo, hi := s[MinIndex(s)], s[MaxIndex(s)];
    assert forall k :: 0 <= k < |s| ==> lo <= s[k] <= hi;
    MeanBetweenBounds(s, lo, hi);
  }

  /** Bounds on every element bound the mean. */
  lemma MeanBetweenBounds(s: seq<real>, lo: real, hi: real)
    requires s != []
    requires forall k :: 0 <= k < |s| ==> lo <= s[k] <= hi
    ensures lo <= Sum(s) / |s| as real <= hi
  {
    var total, n := Sum(s), |s| as real;
    SumBounds(s, lo, hi);
    assert lo * n <= total <= hi * n;
    DivideBounds(lo, total, hi, n);
  }

  lemma DivideBounds(lo: real, total: real, hi: real, n: real)
    requires n > 0.0 && lo * n <= total <= hi * n
    ensures lo <= total / n <= hi
  {
  }

  function MinIndex(s: seq<real>): (i: nat)
    requires s != []
    ensures i < |s| && forall k :: 0 <= k < |s| ==> s[i] <= s[k]
    decreases |s|
  {
    if |s| == 1 then 0
    else
      var j := MinIndex(s[1..]) + 1;
      if s[0] <= s[j] then 0 else j
  }

  function MaxIndex(s: seq<real>): (i: nat)
    requires s != []
    ensures i < |s| && forall k :: 0 <= k < |s| ==> s[k] <= s[i]
    decreases |s|
  {
    if |s| == 1 then 0
    else
      var j := MaxIndex(s[1..]) + 1;
      if s[j] <= s[0] then 0 else j
  }

  /** Bounds on every element bound the sum. */
  lemma {:induction false} SumBounds(s: seq<real>, lo: real, hi: real)
    requires forall k :: 0 <= k < |s| ==> lo <= s[k] <= hi
    ensures lo * |s| as real <= Sum(s) <= hi * |s| as real
    decreases |s|
  {
    if s != [] {
      SumBounds(s[1..], lo, hi);
    }
  }

  /** The qualifying temperatures of two tables laid end to end. */
  lemma {:induction false} VegDayTempsConcat(a: seq<Log>, b: seq<Log>, cycle: Cycle)
    ensures VegDayTemps(a + b, cycle) == VegDayTemps(a, cycle) + VegDayTemps(b, cycle)
    decreases |a|
  {
    if a == [] {
      assert a + b == b;
    } else {
      assert (a + b)[1..] == a[1..] + b;
      VegDayTempsConcat(a[1..], b, cycle);
    }
  }

  lemma {:induction false} SumConcat(a: seq<real>, b: seq<real>)
    ensures Sum(a + b) == Sum(a) + Sum(b)
    decreases |a|
  {
    if a == [] {
      assert a + b == b;
    } else {
      assert (a + b)[1..] == a[1..] + b;
      SumConcat(a[1..], b);
    }
  }

  /** A sum does not depend on the order of its terms. */
  lemma {:induction false} SumPermutation(a: seq<real>, b: seq<real>)
    requires multiset(a) == multiset(b)
    ensures Sum(a) == Sum(b)
    decreases |a|
  {
    if a == [] {
      assert |b| == |multiset(b)| == 0;
    } else {
      var x := a[0];
      assert x in multiset(b);
      var k :| 0 <= k < |b| && b[k] == x;
      var rest := b[..k] + b[k+1..];
      assert b == b[..k] + ([x] + b[k+1..]);
      assert a == [x] + a[1..];
      assert multiset(a[1..]) == multiset(a) - multiset{x};
      assert multiset(rest) == multiset(b) - multiset{x};
      SumPermutation(a[1..], rest);
      SumConcat(b[..k], [x] + b[k+1..]);
      SumConcat([x], b[k+1..]);
      SumConcat(b[..k], b[k+1..]);
    }
  }

  /** Reordering the table reorders the qualifying temperatures and changes nothing else. */
  lemma {:induction false} VegDayTempsPermutation(s: seq<Log>, t: seq<Log>, cycle: Cycle)
    requires multiset(s) == multiset(t)
    ensures multiset(VegDayTemps(s, cycle)) == multiset(VegDayTemps(t, cycle))
    decreases |s|
  {
    if s == [] {
      assert |t| == |multiset(t)| == 0;
    } else {
      var x := s[0];
      assert x in multiset(t);
      var k :| 0 <= k < |t| && t[k] == x;
      var rest := t[..k] + t[k+1..];
      assert t == t[..k] + ([x] + t[k+1..]);
      assert s == [x] + s[1..];
      assert multiset(s[1..]) == multiset(s) - multiset{x};
      assert multiset(rest) == multiset(t) - multiset{x};
      VegDayTempsPermutation(s[1..], rest, cycle);
      VegDayTempsConcat(t[..k], [x] + t[k+1..], cycle);
      VegDayTempsConcat([x], t[k+1..], cycle);
      VegDayTempsConcat(t[..k], t[k+1..], cycle);
      VegDayTempsConcat([x], s[1..], cycle);
    }
  }

  /** The average does not depend on the order the rows are kept in. */
  lemma AverageIgnoresStorageOrder(s: seq<Log>, t: seq<Log>, cycle: Cycle)
    requires multiset(s) == multiset(t)
    ensures AverageVegDayTemp(s, cycle) == AverageVegDayTemp(t, cycle)
  {
    var a, b := VegDayTemps(s, cycle), VegDayTemps(t, cycle);
    VegDayTempsPermutation(s, t, cycle);
    SumPermutation(a, b);
    assert |a| == |multiset(a)| == |multiset(b)| == |b|;
  }

  /** Adding one qualifying log at temperature `x` moves an average `m` over
      `n` rows to `(n * m + x) / (n + 1)`, and starts the average at `x`. */
  lemma AverageAfterQualifyingLog(store: seq<Log>, cycle: Cycle, l: Log)
    requires Qualifies(l, cycle)
    ensures AverageVegDayTemp(store, cycle).None? ==>
              AverageVegDayTemp(store + [l], cycle) == Some(l.temperatureDay.value)
    ensures AverageVegDayTemp(store, cycle).Some? ==>
              var n := |Filter(store, QualifyingIn(cycle))|;
              AverageVegDayTemp(store + [l], cycle) ==
                Some(FoldIn(n, AverageVegDayTemp(store, cycle).value, l.temperatureDay.value))
  {
    var t := VegDayTemps(store, cycle);
    VegDayTempsMatchRows(store, cycle);
    AppendedTemperature(store, cycle, l);
    AverageIsMean(store, cycle);
    AverageIsMean(store + [l], cycle);
    MeanAppend(t, l.temperatureDay.value);
  }

  /** The average is the mean of the qualifying temperatures. */
  lemma AverageIsMean(store: seq<Log>, cycle: Cycle)
    ensures AverageVegDayTemp(store, cycle) == Mean(VegDayTemps(store, cycle))
  {
  }

  /** One more value `x` folded into the mean of `t`. */
  lemma MeanAppend(t: seq<real>, x: real)
    ensures Mean(t + [x]) == if t == [] then Some(x) else Some(FoldIn(|t|, Mean(t).value, x))
  {
    SumConcat(t, [x]);
    assert Sum([x]) == x;
    if t != [] {
      MeanUpdate(Sum(t), |t|, x);
    } else {
      assert t + [x] == [x];
    }
  }

  /** The mean of `n` values averaging `m` and one more value `x`. */
  function FoldIn(n: nat, m: real, x: real): real {
    (n as real * m + x) / (n + 1) as real
  }

  /** Folding one more value into a mean over `n` values. */
  lemma MeanUpdate(total: real, n: nat, x: real)
    requires n > 0
    ensures FoldIn(n, total / n as real, x) == (total + x) / (n + 1) as real
  {
    ScaledMean(total, n as real);
  }


  lemma AppendedTemperature(store: seq<Log>, cycle: Cycle, l: Log)
    requires Qualifies(l, cycle)
    ensures VegDayTemps(store + [l], cycle) == VegDayTemps(store, cycle) + [l.temperatureDay.value]
    ensures Sum(VegDayTemps(store + [l], cycle)) == Sum(VegDayTemps(store, cycle)) + l.temperatureDay.value
  {
    var x := l.temperatureDay.value;
    VegDayTempsConcat(store, [l], cycle);
    assert VegDayTemps([l], cycle) == [x];
    SumConcat(VegDayTemps(store, cycle), [x]);
  }

  /** Scaling a mean back by its count gives the total. */
  lemma ScaledMean(total: real, n: real)
    requires n > 0.0
    ensures n * (total / n) == total
  {
  }

  /** A log of another cycle, of another phase or without a day temperature
      can be added anywhere without changing the average. */
  lemma AverageIgnoresNonQualifying(a: seq<Log>, b: seq<Log>, l: Log, cycle: Cycle)
    requires !Qualifies(l, cycle)
    ensures AverageVegDayTemp(a + [l] + b, cycle) == AverageVegDayTemp(a + b, cycle)
  {
    VegDayTempsSkip(a, b, l, cycle);
  }

  lemma VegDayTempsSkip(a: seq<Log>, b: seq<Log>, l: Log, cycle: Cycle)
    requires !Qualifies(l, cycle)
    ensures VegDayTemps(a + [l] + b, cycle) == VegDayTemps(a + b, cycle)
  {
    var al := a + [l];
    VegDayTempsConcat(al, b, cycle);
    VegDayTempsConcat(a, [l], cycle);
    assert VegDayTemps([l], cycle) == [];
    assert VegDayTemps(al, cycle) == VegDayTemps(a, cycle);
    VegDayTempsConcat(a, b, cycle);
  }

  /** A vegetative log at 20 degrees, a vegetative log with no day
      temperature and a bloom log at 25 degrees average to 20, not to 10 and
      not to 22.5; a cycle with no logs has no average. */
  lemma ThreeLogAverageExample(s: seq<Log>, cycle: Cycle, empty: Cycle)
    requires |s| == 3 && forall k :: 0 <= k < 3 ==> s[k].cycle.id == cycle.id
    requires s[0].phase == Vegetative && s[0].temperatureDay == Some(20.0)
    requires s[1].phase == Vegetative && s[1].temperatureDay == None
    requires s[2].phase == Bloom && s[2].temperatureDay == Some(25.0)
    requires empty.id != cycle.id
    ensures AverageVegDayTemp(s, cycle) == Some(20.0)
    ensures AverageVegDayTemp(s, empty) == None
  {
    assert VegDayTemps(s[2..], cycle) == [];
    assert VegDayTemps(s[1..], cycle) == [];
    assert VegDayTemps(s, cycle) == [20.0];
  }
}

=== FILE: decimal.dfy ===
/**
 Python's `str(int)` as used inside the f-strings of the `__str__` methods,
 and the reading of a trailing number back out of a label, which is how
 the labels are shown to be unambiguous about their numbers.
 */
module Decimal {
  import opened Options

  predicate IsDigit(c: char) {
    '0' <= c <= '9'
  }

  predicate AllDigits(s: string) {
    forall i :: 0 <= i < |s| ==> IsDigit(s[i])
  }

  function DigitChar(d: nat): (c: char)
    requires d < 10
    ensures IsDigit(c) && c as int - '0' as int == d
  {
    ('0' as int + d) as char
  }

  function DigitValue(c: char): (d: nat)
    requires IsDigit(c)
    ensures d < 10
  {
    c as int - '0' as int
  }

  /** Decimal digits of `n`, most significant first, with no leading zero. */
  function NatToString(n: nat): (s: string)
    ensures 1 <= |s|
    ensures AllDigits(s)
    ensures 1 < |s| ==> s[0] != '0'
    decreases n
  {
    if n < 10 then [DigitChar(n)] else NatToString(n / 10) + [DigitChar(n % 10)]
  }

  /** The number a string of decimal digits denotes. */
  function DigitsValue(s: string): nat
    requires AllDigits(s)
    decreases |s|
  {
    if s == [] then 0 else DigitsValue(s[..|s| - 1]) * 10 + DigitValue(s[|s| - 1])
  }

  /** `str(i)` for a Python int: a minus sign before the digits of a negative number. */
  function IntToString(i: int): (s: string)
    ensures 1 <= |s|
    ensures i < 0 <==> s[0] == '-'
    ensures AllDigits(s[1..])
    ensures i >= 0 ==> AllDigits(s)
    ensures var digits := if i < 0 then s[1..] else s; 1 < |digits| ==> digits[0] != '0'
  {
    if i < 0 then "-" + NatToString(-i) else NatToString(i)
  }

  /** The length of the longest run of digits that ends the string. */
  function TrailingDigitCount(s: string): (k: nat)
    ensures k <= |s|
    ensures forall j :: |s| - k <= j < |s| ==> IsDigit(s[j])
    ensures k < |s| ==> !IsDigit(s[|s| - k - 1])
    decreases |s|
  {
    if s == [] || !IsDigit(s[|s| - 1]) then 0
    else TrailingDigitCount(s[..|s| - 1]) + 1
  }

  /** The longest run of digits that ends the string. */
  function TrailingDigits(s: string): (d: string)
    ensures AllDigits(d)
  {
    s[|s| - TrailingDigitCount(s)..]
  }

  /** The natural number a string ends with, if it ends with a digit. */
  function TrailingNat(s: string): Option<nat> {
    var d := TrailingDigits(s);
    if d == [] then None else Some(DigitsValue(d))
  }

  /** The integer a string ends with, negative when a minus sign comes right before its digits. */
  function TrailingInt(s: string): Option<int> {
    var k := TrailingDigitCount(s);
    var v: int := DigitsValue(TrailingDigits(s));
    if k == 0 then None
    else if k < |s| && s[|s| - k - 1] == '-' then Some(-v)
    else Some(v)
  }

  /** Reading the digits of `n` gives back `n`. */
  lemma {:induction false} NatToStringRoundTrip(n: nat)
    ensures DigitsValue(NatToString(n)) == n
    decreases n
  {
    if n >= 10 {
      var s := NatToString(n);
      assert s[..|s| - 1] == NatToString(n / 10);
      NatToStringRoundTrip(n / 10);
    }
  }

  /** Digits appended after a non-digit are exactly the trailing digits. */
  lemma {:induction false} TrailingDigitsOfAppend(prefix: string, d: string)
    requires AllDigits(d)
    requires prefix == [] || !IsDigit(prefix[|prefix| - 1])
    ensures TrailingDigitCount(prefix + d) == |d|
    ensures TrailingDigits(prefix + d) == d
    decreases |d|
  {
    var s := prefix + d;
    if d == [] {
      assert s == prefix;
    } else {
      assert s[..|s| - 1] == prefix + d[..|d| - 1];
      TrailingDigitsOfAppend(prefix, d[..|d| - 1]);
    }
    assert s[|s| - |d|..] == d;
  }

  /** A label ending in a separator and then `str(n)` yields `n` back. */
  lemma NatLabelRoundTrip(prefix: string, n: nat)
    requires prefix == [] || !IsDigit(prefix[|prefix| - 1])
    ensures TrailingNat(prefix + NatToString(n)) == Some(n)
  {
    TrailingDigitsOfAppend(prefix, NatToString(n));
    NatToStringRoundTrip(n);
  }

  /** A label ending in a separator other than `-` and then `str(i)` yields `i` back. */
  lemma IntLabelRoundTrip(prefix: string, i: int)
    requires prefix == [] || (!IsDigit(prefix[|prefix| - 1]) && prefix[|prefix| - 1] != '-')
    ensures TrailingInt(prefix + IntToString(i)) == Some(i)
  {
    if i < 0 {
      var n: nat := -i;
      assert IntToString(i) == "-" + NatToString(n);
      MinusDigitsAreNegative(prefix, NatToString(n));
      NatToStringRoundTrip(n);
    } else {
      assert IntToString(i) == NatToString(i);
      BareDigitsAreNonNegative(prefix, NatToString(i));
      NatToStringRoundTrip(i);
    }
  }

  lemma MinusDigitsAreNegative(prefix: string, d: string)
    requires AllDigits(d) && d != []
    ensures TrailingInt(prefix + ("-" + d)) == Some(-(DigitsValue(d) as int))
  {
    var s := prefix + ("-" + d);
    assert s == (prefix + "-") + d;
    TrailingDigitsOfAppend(prefix + "-", d);
    assert s[|s| - |d| - 1] == '-';
  }

  lemma BareDigitsAreNonNegative(prefix: string, d: string)
    requires AllDigits(d) && d != []
    requires prefix == [] || (!IsDigit(prefix[|prefix| - 1]) && prefix[|prefix| - 1] != '-')
    ensures TrailingInt(prefix + d) == Some(DigitsValue(d))
  {
    var s := prefix + d;
    TrailingDigitsOfAppend(prefix, d);
    assert |d| < |s| ==> s[|s| - |d| - 1] == prefix[|prefix| - 1];
  }
}

=== FILE: models.dfy ===
/**
 The records of the grow log: a cycle (one growth run), the dated logs of
 its environmental readings, the nutrient catalogue and the nutrient doses
 given at a log, with the display labels their `__str__` methods build.
 Nullable columns are `Option`s; floating-point columns are idealised as
 `real`; dates are day numbers.
 */
module Models {
  import opened Options
  import opened Decimal

  /** The three choices of `Log.phase`. */
  datatype Phase = Seedling | Vegetative | Bloom

  datatype Cycle = Cycle(
    id: nat,
    name: string,
    date: int,
    genetics: Option<string>,
    seedbank: Option<string>,
    fixture: Option<string>,
    comment: Option<string>)

  /** One row of the log table; `cycle` is the cycle the foreign key points at. */
  datatype Log = Log(
    id: nat,
    cycle: Cycle,
    date: int,
    phase: Phase,
    temperatureDay: Option<real>,
    temperatureNight: Option<real>,
    humidityDay: Option<int>,
    humidityNight: Option<int>,
    ph: Option<real>,
    ec: Option<real>,
    irrigation: Option<string>,
    lightHeight: Option<int>,
    lightPower: Option<int>,
    carbonDioxide: Option<int>,
    calibration: Option<bool>,
    featuredImage: Option<string>,
    comment: Option<string>)

  datatype Nutrient = Nutrient(
    id: nat,
    name: string,
    brand: string,
    featuredImage: Option<string>,
    detail: Option<string>)

  /** A dose of `nutrient` given at the log whose id is `logId`. */
  datatype NutrientLog = NutrientLog(id: nat, logId: nat, nutrient: Nutrient, concentration: int)

  /** The stored value of a phase choice, which is what `str` of the field shows. */
  function PhaseName(p: Phase): string {
    match p
    case Seedling => "seedling"
    case Vegetative => "vegetative"
    case Bloom => "bloom"
  }

  /** `Cycle.__str__`. */
  function CycleLabel(c: Cycle): string {
    c.name
  }

  /** `Nutrient.__str__`. */
  function NutrientLabel(n: Nutrient): string {
    n.name
  }

  /** `NutrientLog.__str__`: the nutrient's label, a dash, the concentration. */
  function NutrientLogLabel(nl: NutrientLog): string {
    NutrientLabel(nl.nutrient) + " - " + IntToString(nl.concentration)
  }

  /** Ids are primary keys: no two positions of a table hold the same id. */
  predicate UniqueIds(s: seq<Log>) {
    forall i, j :: 0 <= i < j < |s| ==> s[i].id != s[j].id
  }

  /** Under unique ids, a row is determined by its id. */
  lemma SameIdSameLog(s: seq<Log>, a: Log, b: Log)
    requires UniqueIds(s) && a in s && b in s && a.id == b.id
    ensures a == b
  {
    var i :| 0 <= i < |s| && s[i] == a;
    var j :| 0 <= j < |s| && s[j] == b;
    assert !(i < j) && !(j < i);
  }

  /** A table with unique ids holds each row once. */
  lemma {:induction false} UniqueIdsCountOnce(s: seq<Log>)
    requires UniqueIds(s)
    ensures forall x :: multiset(s)[x] <= 1
    decreases |s|
  {
    if s != [] {
      var rest := s[1..];
      assert s == [s[0]] + rest;
      assert UniqueIds(rest) by {
        forall i, j | 0 <= i < j < |rest|
          ensures rest[i].id != rest[j].id
        {
          assert rest[i] == s[i + 1] && rest[j] == s[j + 1];
        }
      }
      UniqueIdsCountOnce(rest);
      forall k | 0 <= k < |rest|
        ensures rest[k] != s[0]
      {
        assert rest[k] == s[k + 1];
      }
    }
  }

  /** A row at two positions is counted twice. */
  lemma RepeatCountsTwice(s: seq<Log>, i: nat, j: nat)
    requires i < j < |s| && s[i] == s[j]
    ensures multiset(s)[s[i]] >= 2
  {
    var a, b := s[..j], s[j + 1..];
    assert s == a + [s[j]] + b;
    assert a[i] == s[i];
    assert multiset(a)[s[i]] >= 1;
  }

  /** Rearranging a table keeps its ids unique. */
  lemma UniqueIdsPermutation(s: seq<Log>, t: seq<Log>)
    requires multiset(s) == multiset(t) && UniqueIds(s)
    ensures UniqueIds(t)
  {
    UniqueIdsCountOnce(s);
    forall i, j | 0 <= i < j < |t|
      ensures t[i].id != t[j].id
    {
      if t[i].id == t[j].id {
        assert t[i] in multiset(s) && t[j] in multiset(s);
        SameIdSameLog(s, t[i], t[j]);
        RepeatCountsTwice(t, i, j);
      }
    }
  }

  /** The phase choices are told apart by their stored names. */
  lemma PhaseNamesDistinct(p: Phase, q: Phase)
    ensures PhaseName(p) == PhaseName(q) <==> p == q
  {
  }

  /** A dose shows the nutrient's label, which is its name, then ` - `, and
      ends with the concentration, which can be read back from the end of the
      label whatever the name contains. */
  lemma NutrientLogLabelParts(nl: NutrientLog)
    ensures NutrientLabel(nl.nutrient) == nl.nutrient.name
    ensures var shown := NutrientLogLabel(nl); var n := |nl.nutrient.name|;
      && n + 3 < |shown|
      && shown[..n] == nl.nutrient.name
      && shown[n..n + 3] == " - "
      && shown[n + 3..] == IntToString(nl.concentration)
      && TrailingInt(shown) == Some(nl.concentration)
  {
    var shown := NutrientLogLabel(nl);
    assert shown == (nl.nutrient.name + " - ") + IntToString(nl.concentration);
    IntLabelRoundTrip(nl.nutrient.name + " - ", nl.concentration);
  }
}

=== FILE: options.dfy ===
/** Python's `None` and raised exceptions, as values. */
module Options {

  /** A value that may be absent: a nullable column or a missing dictionary key. */
  datatype Option<+T> = None | Some(value: T)

  /** The outcome of an operation that can fail with an error of type `E`. */
  datatype Result<+T, +E> = Success(value: T) | Failure(error: E)
}

=== FILE: ordering.dfy ===
/**
 The default order of logs: phase rank (seedling, vegetative, bloom), then
 date, then id. Every query over logs returns its rows in this order.
 */
module LogOrdering {
  import opened Models

  /** The `Case`/`When` rank the ordering gives each phase choice. */
  function PhaseRank(p: Phase): nat {
    match p
    case Seedling => 1
    case Vegetative => 2
    case Bloom => 3
  }

  /** `a` sorts strictly before `b`: the lexicographic comparison of (phase rank, date, id). */
  predicate Before(a: Log, b: Log) {
    || PhaseRank(a.phase) < PhaseRank(b.phase)
    || (PhaseRank(a.phase) == PhaseRank(b.phase) && a.date < b.date)
    || (PhaseRank(a.phase) == PhaseRank(b.phase) && a.date == b.date && a.id < b.id)
  }

  /** `a` may come before `b` in a correctly ordered result. */
  predicate NotAfter(a: Log, b: Log) {
    !Before(b, a)
  }

  predicate Sorted(s: seq<Log>) {
    forall i, j :: 0 <= i < j < |s| ==> NotAfter(s[i], s[j])
  }

  /** The phase ranks agree with the growth order seedling, vegetative, bloom. */
  lemma PhaseRanks()
    ensures PhaseRank(Seedling) == 1 && PhaseRank(Vegetative) == 2 && PhaseRank(Bloom) == 3
    ensures forall p, q :: PhaseRank(p) == PhaseRank(q) ==> p == q
  {
  }

  /** A seedling log sorts before every vegetative or bloom log, and a
      vegetative log before every bloom log, whatever their dates and ids. */
  lemma EarlierPhaseFirst(a: Log, b: Log)
    requires (a.phase == Seedling && b.phase != Seedling) || (a.phase == Vegetative && b.phase == Bloom)
    ensures Before(a, b) && !Before(b, a)
  {
  }

  /** Within a phase, the earlier date sorts first. */
  lemma EarlierDateFirst(a: Log, b: Log)
    requires a.phase == b.phase && a.date < b.date
    ensures Before(a, b) && !Before(b, a)
  {
  }

  /** Within a phase and a date, the lower id sorts first. */
  lemma LowerIdFirst(a: Log, b: Log)
    requires a.phase == b.phase && a.date == b.date && a.id < b.id
    ensures Before(a, b) && !Before(b, a)
  {
  }

  /** `Before` is a strict total order on logs with distinct ids, and
      `NotAfter` holds both ways only between logs with the same key. */
  lemma BeforeIsStrictTotalOrder(a: Log, b: Log, c: Log)
    ensures !Before(a, a)
    ensures Before(a, b) ==> !Before(b, a)
    ensures Before(a, b) && Before(b, c) ==> Before(a, c)
    ensures a.id != b.id ==> Before(a, b) || Before(b, a)
    ensures NotAfter(a, b) && NotAfter(b, a) ==> a.id == b.id && a.date == b.date && a.phase == b.phase
  {
  }

  /** Insertion of one log into an ordered sequence. */
  function Insert(x: Log, s: seq<Log>): (r: seq<Log>)
    requires Sorted(s)
    ensures Sorted(r)
    ensures multiset(r) == multiset(s) + multiset{x}
    decreases |s|
  {
    if s == [] then [x]
    else if NotAfter(x, s[0]) then [x] + s
    else
      var rest := Insert(x, s[1..]);
      assert s == [s[0]] + s[1..];
      HeadStaysFirst(s[0], x, s[1..], rest);
      [s[0]] + rest
  }

  /** The head of an ordered sequence that sorts before `x` still leads after `x` is inserted behind it. */
  lemma HeadStaysFirst(h: Log, x: Log, t: seq<Log>, rest: seq<Log>)
    requires Before(h, x)
    requires Sorted([h] + t) && Sorted(rest)
    requires multiset(rest) == multiset(t) + multiset{x}
    ensures Sorted([h] + rest)
  {
    forall k | 0 <= k < |rest|
      ensures NotAfter(h, rest[k])
    {
      assert rest[k] in multiset(rest);
      if rest[k] == x {
        BeforeIsStrictTotalOrder(h, x, h);
      } else {
        assert rest[k] in multiset(t);
        var m :| 0 <= m < |t| && t[m] == rest[k];
        assert ([h] + t)[0] == h && ([h] + t)[m + 1] == t[m];
        assert NotAfter(([h] + t)[0], ([h] + t)[m + 1]);
      }
    }
    forall i, j | 0 <= i < j < |[h] + rest|
      ensures NotAfter(([h] + rest)[i], ([h] + rest)[j])
    {
      if i > 0 {
        assert ([h] + rest)[i] == rest[i - 1] && ([h] + rest)[j] == rest[j - 1];
      }
    }
  }

  /** The rows of `s` in the default order. */
  function OrderBy(s: seq<Log>): (r: seq<Log>)
    ensures Sorted(r)
    ensures multiset(r) == multiset(s)
    decreases |s|
  {
    if s == [] then []
    else
      assert s == [s[0]] + s[1..];
      Insert(s[0], OrderBy(s[1..]))
  }

  /** Ordering keeps exactly the rows it is given. */
  lemma OrderByKeepsRows(s: seq<Log>)
    ensures forall l :: l in OrderBy(s) <==> l in s
  {
    var r := OrderBy(s);
    assert forall l :: l in r <==> l in multiset(r);
    assert forall l :: l in s <==> l in multiset(s);
  }

  /** With ids unique, there is only one way to order a collection of logs. */
  lemma {:induction false} SortedPermutationsAgree(a: seq<Log>, b: seq<Log>)
    requires Sorted(a) && Sorted(b)
    requires multiset(a) == multiset(b)
    requires UniqueIds(a)
    ensures a == b
    decreases |a|
  {
    if a == [] {
      assert |b| == |multiset(b)| == 0;
    } else {
      assert |b| == |multiset(b)| == |a|;
      SortedHeadsAgree(a, b);
      SortedTail(a);
      SortedTail(b);
      SortedPermutationsAgree(a[1..], b[1..]);
      assert a == [a[0]] + a[1..] && b == [b[0]] + b[1..];
    }
  }

  /** Dropping the first log keeps a sequence ordered and its ids unique. */
  lemma SortedTail(a: seq<Log>)
    requires Sorted(a) && |a| > 0
    ensures Sorted(a[1..])
    ensures UniqueIds(a) ==> UniqueIds(a[1..])
    ensures multiset(a[1..]) == multiset(a) - multiset{a[0]}
  {
    assert a == [a[0]] + a[1..];
  }

  /** The head of an ordered sequence sorts no later than any of its elements. */
  lemma HeadNotAfter(s: seq<Log>, k: nat)
    requires Sorted(s) && k < |s|
    ensures NotAfter(s[0], s[k])
  {
  }

  /** Two orderings of the same logs start with the same log. */
  lemma SortedHeadsAgree(a: seq<Log>, b: seq<Log>)
    requires Sorted(a) && Sorted(b) && |a| > 0 && |b| > 0
    requires multiset(a) == multiset(b)
    requires UniqueIds(a)
    ensures a[0] == b[0]
  {
    assert b[0] in multiset(a) && a[0] in multiset(b);
    var i :| 0 <= i < |a| && a[i] == b[0];
    var j :| 0 <= j < |b| && b[j] == a[0];
    HeadNotAfter(a, i);
    HeadNotAfter(b, j);
    BeforeIsStrictTotalOrder(a[0], b[0], a[0]);
    assert a[0].id == a[i].id;
  }

  /** The default order of a collection of logs does not depend on the order the rows were stored in. */
  lemma OrderIsDeterministic(s: seq<Log>, t: seq<Log>)
    requires multiset(s) == multiset(t)
    requires UniqueIds(s)
    ensures OrderBy(s) == OrderBy(t)
  {
    var a := OrderBy(s);
    UniqueIdsPermutation(s, a);
    SortedPermutationsAgree(a, OrderBy(t));
  }

  /** In an ordered sequence, the rows before the first occurrence of a log's id
      sort before it and no later row does. */
  lemma SplitAtLog(q: seq<Log>, i: nat, log: Log)
    requires Sorted(q) && i < |q| && q[i] == log
    requires forall j :: 0 <= j < i ==> q[j].id != log.id
    ensures forall j :: 0 <= j < i ==> Before(q[j], log)
    ensures forall j :: i <= j < |q| ==> !Before(q[j], log)
  {
    forall j | 0 <= j < i
      ensures Before(q[j], log)
    {
      assert NotAfter(q[j], q[i]);
      BeforeIsStrictTotalOrder(q[j], log, log);
    }
    forall j | i <= j < |q|
      ensures !Before(q[j], log)
    {
      if j > i {
        assert NotAfter(q[i], q[j]);
      }
    }
  }

  /** The last log of an ordered sequence sorts after every log in it. */
  lemma LastIsGreatest(q: seq<Log>)
    requires Sorted(q) && q != []
    ensures forall l :: l in q ==> NotAfter(l, q[|q| - 1])
  {
    forall l | l in q
      ensures NotAfter(l, q[|q| - 1])
    {
      var i :| 0 <= i < |q| && q[i] == l;
      if i < |q| - 1 {
        assert NotAfter(q[i], q[|q| - 1]);
      } else {
        BeforeIsStrictTotalOrder(l, l, l);
      }
    }
  }

  /** Whatever does not sort after `a` sorts before anything `a` sorts before. */
  lemma NotAfterThenBefore(m: Log, a: Log, b: Log)
    requires NotAfter(m, a) && Before(a, b)
    ensures Before(m, b)
  {
  }
}

=== FILE: phase_day.dfy ===
/**
 The day-in-phase number of a log and the label `Log.__str__` builds from
 it: the log's 1-based position among the logs of the same cycle and the
 same phase, taken in the default order.
 */
module PhaseDay {
  import opened Options
  import opened Decimal
  import opened Models
  import opened Seqs
  import opened LogOrdering

  /** The rows `Log.objects.filter(cycle=..., phase=...)` selects. */
  function InSeries(cycleId: nat, phase: Phase): Log -> bool {
    (l: Log) => l.cycle.id == cycleId && l.phase == phase
  }

  /** The rows of one cycle and phase in the default order, as the query returns them. */
  function SeriesLogs(store: seq<Log>, cycleId: nat, phase: Phase): (r: seq<Log>)
    ensures forall l :: l in r <==> l in store && l.cycle.id == cycleId && l.phase == phase
    ensures multiset(r) == multiset(Filter(store, InSeries(cycleId, phase)))
    ensures Sorted(r)
  {
    OrderByKeepsRows(Filter(store, InSeries(cycleId, phase)));
    OrderBy(Filter(store, InSeries(cycleId, phase)))
  }

  /** The query for `log`'s cycle and phase holds a row with `log`'s primary key,
      so `list.index` finds one; otherwise it raises. */
  predicate Stored(store: seq<Log>, log: Log) {
    exists l :: l in store && l.id == log.id && l.cycle.id == log.cycle.id && l.phase == log.phase
  }

  /** `list.index`: model instances compare equal when their primary keys do. */
  function IndexOf(s: seq<Log>, id: nat): (i: nat)
    requires exists l :: l in s && l.id == id
    ensures i < |s| && s[i].id == id
    ensures forall j :: 0 <= j < i ==> s[j].id != id
    decreases |s|
  {
    if s[0].id == id then 0
    else
      assert exists l :: l in s[1..] && l.id == id by {
        var l :| l in s && l.id == id;
        var k :| 0 <= k < |s| && s[k] == l;
        assert s[1..][k - 1] == l;
      }
      IndexOf(s[1..], id) + 1
  }

  /** The day number of `Log.__str__`: `log` is the n-th row of its cycle and phase. */
  function DayInPhase(store: seq<Log>, log: Log): (n: nat)
    requires Stored(store, log)
    ensures var r := SeriesLogs(store, log.cycle.id, log.phase);
      && 1 <= n <= |r|
      && r[n - 1].id == log.id
      && forall j :: 0 <= j < n - 1 ==> r[j].id != log.id
  {
    StoredInSeries(store, log);
    IndexOf(SeriesLogs(store, log.cycle.id, log.phase), log.id) + 1
  }

  /** A stored log's query returns a row with its primary key. */
  lemma StoredInSeries(store: seq<Log>, log: Log)
    requires Stored(store, log)
    ensures exists l :: l in SeriesLogs(store, log.cycle.id, log.phase) && l.id == log.id
  {
    var l :| l in store && l.id == log.id && l.cycle.id == log.cycle.id && l.phase == log.phase;
    assert l in SeriesLogs(store, log.cycle.id, log.phase);
  }

  /** `Log.__str__`: cycle name, phase choice and day number, joined by dashes. */
  function LogLabel(store: seq<Log>, log: Log): string
    requires Stored(store, log)
  {
    ShowLog(log.cycle.name, log.phase, DayInPhase(store, log))
  }

  /** The label of a log of the cycle named `name`, in `phase`, on day `day` of that phase. */
  function ShowLog(name: string, phase: Phase, day: nat): string {
    name + " - " + PhaseName(phase) + " - Day " + NatToString(day)
  }

  /** The logs of `log`'s cycle and phase that sort before it. */
  function EarlierInSeries(log: Log): Log -> bool {
    (l: Log) => l.cycle.id == log.cycle.id && l.phase == log.phase && Before(l, log)
  }

  /** The label begins with the cycle's name, which is the cycle's own label,
      names the phase, and continues with the decimal digits of the day number
      and nothing else, so the number reads back unchanged. */
  lemma LogLabelParts(store: seq<Log>, log: Log)
    requires Stored(store, log)
    ensures CycleLabel(log.cycle) == log.cycle.name
    ensures var shown := LogLabel(store, log);
      var head := log.cycle.name + " - " + PhaseName(log.phase) + " - Day ";
      && |head| < |shown|
      && shown[..|head|] == head
      && shown[|head|..] == NatToString(DayInPhase(store, log))
      && TrailingNat(shown) == Some(DayInPhase(store, log))
  {
    var head := log.cycle.name + " - " + PhaseName(log.phase) + " - Day ";
    assert ShowLog(log.cycle.name, log.phase, DayInPhase(store, log)) == head + NatToString(DayInPhase(store, log));
    NatLabelRoundTrip(head, DayInPhase(store, log));
  }

  /** A stored log's day number is one more than the number of logs of its
      cycle and phase that sort before it. */
  lemma DayInPhaseCountsEarlierLogs(store: seq<Log>, log: Log)
    requires UniqueIds(store) && log in store
    ensures Stored(store, log)
    ensures DayInPhase(store, log) == 1 + |Filter(store, EarlierInSeries(log))|
  {
    var p := InSeries(log.cycle.id, log.phase);
    var e := EarlierInSeries(log);
    var f := Filter(store, p);
    var q := OrderBy(f);
    assert q == SeriesLogs(store, log.cycle.id, log.phase);
    EarlierLogsLeadTheSeries(store, log);
    FilterPermutation(q, f, e);
    assert |Filter(q, e)| == |multiset(Filter(q, e))| == |multiset(Filter(f, e))| == |Filter(f, e)|;
    FilterNarrows(store, p, e);
  }

  /** In the ordered query, exactly the rows before `log` sort before it. */
  lemma EarlierLogsLeadTheSeries(store: seq<Log>, log: Log)
    requires UniqueIds(store) && log in store
    ensures Stored(store, log)
    ensures var q := SeriesLogs(store, log.cycle.id, log.phase);
      Filter(q, EarlierInSeries(log)) == q[..DayInPhase(store, log) - 1]
  {
    var q := SeriesLogs(store, log.cycle.id, log.phase);
    var i := DayInPhase(store, log) - 1;
    assert q[i] in q;
    SameIdSameLog(store, q[i], log);
    SplitAtLog(q, i, log);
    forall j | 0 <= j < |q|
      ensures q[j].cycle.id == log.cycle.id && q[j].phase == log.phase
    {
      assert q[j] in q;
    }
    FilterPrefix(q, i, EarlierInSeries(log));
  }

  /** Numbering restarts in every phase: a log that no log of its cycle and
      phase sorts before is day 1. */
  lemma FirstOfSeriesIsDayOne(store: seq<Log>, log: Log)
    requires UniqueIds(store) && log in store
    requires forall l :: l in store && l.cycle.id == log.cycle.id && l.phase == log.phase ==> !Before(l, log)
    ensures Stored(store, log)
    ensures DayInPhase(store, log) == 1
  {
    DayInPhaseCountsEarlierLogs(store, log);
    assert forall i :: 0 <= i < |store| ==> store[i] in store;
    FilterKeepsNone(store, EarlierInSeries(log));
  }

  /** Adding a log of another cycle or another phase, anywhere in the table,
      does not move any log's day number. */
  lemma DayInPhaseIgnoresOtherSeries(a: seq<Log>, b: seq<Log>, other: Log, log: Log)
    requires Stored(a + b, log)
    requires other.cycle.id != log.cycle.id || other.phase != log.phase
    ensures Stored(a + [other] + b, log)
    ensures DayInPhase(a + [other] + b, log) == DayInPhase(a + b, log)
  {
    var p := InSeries(log.cycle.id, log.phase);
    FilterSkips(a, b, other, p);
    assert SeriesLogs(a + [other] + b, log.cycle.id, log.phase) == SeriesLogs(a + b, log.cycle.id, log.phase);
    var l :| l in a + b && l.id == log.id && l.cycle.id == log.cycle.id && l.phase == log.phase;
    assert l in a + [other] + b;
  }

  /** Different logs of the same cycle and phase get different day numbers. */
  lemma DayInPhaseDistinct(store: seq<Log>, x: Log, y: Log)
    requires Stored(store, x) && Stored(store, y)
    requires x.cycle.id == y.cycle.id && x.phase == y.phase && x.id != y.id
    ensures DayInPhase(store, x) != DayInPhase(store, y)
  {
  }

  /** Within a cycle and phase, day numbers follow the default order: the
      earlier date, or on the same date the lower id, gets the lower number. */
  lemma DayInPhaseFollowsOrder(store: seq<Log>, x: Log, y: Log)
    requires UniqueIds(store) && x in store && y in store
    requires x.cycle.id == y.cycle.id && x.phase == y.phase && Before(x, y)
    ensures Stored(store, x) && Stored(store, y)
    ensures DayInPhase(store, x) < DayInPhase(store, y)
  {
    var q := SeriesLogs(store, x.cycle.id, x.phase);
    var i := DayInPhase(store, x) - 1;
    var k := DayInPhase(store, y) - 1;
    assert q[i] in q && q[k] in q;
    SameIdSameLog(store, q[i], x);
    SameIdSameLog(store, q[k], y);
    SplitAtLog(q, k, y);
  }

  /** Day numbers depend on which logs are stored, not on the order the rows are kept in. */
  lemma DayInPhaseIgnoresStorageOrder(s: seq<Log>, t: seq<Log>, log: Log)
    requires multiset(s) == multiset(t) && UniqueIds(s)
    requires Stored(s, log)
    ensures Stored(t, log)
    ensures DayInPhase(t, log) == DayInPhase(s, log)
  {
    var p := InSeries(log.cycle.id, log.phase);
    var l :| l in s && l.id == log.id && l.cycle.id == log.cycle.id && l.phase == log.phase;
    assert l in multiset(t);
    FilterPermutation(s, t, p);
    FilterKeepsUniqueIds(s, p);
    OrderIsDeterministic(Filter(s, p), Filter(t, p));
    SameSeriesSameDay(s, t, log);
  }

  /** Two tables whose queries for a log's cycle and phase agree give it the same day. */
  lemma SameSeriesSameDay(s: seq<Log>, t: seq<Log>, log: Log)
    requires Stored(s, log) && Stored(t, log)
    requires SeriesLogs(s, log.cycle.id, log.phase) == SeriesLogs(t, log.cycle.id, log.phase)
    ensures DayInPhase(t, log) == DayInPhase(s, log)
  {
  }

  /** Selecting rows keeps their ids unique. */
  lemma {:induction false} FilterKeepsUniqueIds(s: seq<Log>, p: Log -> bool)
    requires UniqueIds(s)
    ensures UniqueIds(Filter(s, p))
    decreases |s|
  {
    if s != [] {
      var rest := s[1..];
      assert UniqueIds(rest) by {
        forall i, j | 0 <= i < j < |rest|
          ensures rest[i].id != rest[j].id
        {
          assert rest[i] == s[i + 1] && rest[j] == s[j + 1];
        }
      }
      FilterKeepsUniqueIds(rest, p);
      var f := Filter(rest, p);
      forall k | 0 <= k < |f|
        ensures f[k].id != s[0].id
      {
        assert f[k] in rest;
        var m :| 0 <= m < |rest| && rest[m] == f[k];
        assert s[m + 1] == f[k];
      }
      var r := Filter(s, p);
      assert r == (if p(s[0]) then [s[0]] else []) + f;
      forall i, j | 0 <= i < j < |r|
        ensures r[i].id != r[j].id
      {
        if p(s[0]) {
          assert r[j] == f[j - 1];
          if i > 0 {
            assert r[i] == f[i - 1];
          }
        }
      }
    }
  }

  /** Three logs of one cycle created in turn on one day as vegetative,
      bloom and vegetative, and then a log of another cycle: the
      first two are day 1 of their phases and the third is day 2 of the
      vegetative phase. */
  lemma CreationOrderExample(s: seq<Log>)
    requires |s| == 4 && UniqueIds(s)
    requires s[0].cycle == s[1].cycle == s[2].cycle && s[3].cycle.id != s[0].cycle.id
    requires s[0].phase == Vegetative && s[1].phase == Bloom && s[2].phase == Vegetative
    requires s[0].date == s[1].date == s[2].date && s[0].id < s[1].id < s[2].id
    ensures Stored(s, s[0]) && Stored(s, s[1]) && Stored(s, s[2])
    ensures DayInPhase(s, s[0]) == 1 && DayInPhase(s, s[1]) == 1 && DayInPhase(s, s[2]) == 2
    ensures LogLabel(s, s[2]) == s[0].cycle.name + " - vegetative - Day 2"
  {
    assert forall l :: l in s ==> l == s[0] || l == s[1] || l == s[2] || l == s[3];
    FirstOfSeriesIsDayOne(s, s[0]);
    FirstOfSeriesIsDayOne(s, s[1]);
    ExampleThirdDay(s);
    ExampleLabel(s[0].cycle.name);
  }

  lemma ExampleLabel(name: string)
    ensures ShowLog(name, Vegetative, 2) == name + " - vegetative - Day 2"
  {
    var two := NatToString(2);
    assert two == [DigitChar(2)] == "2";
    var tail := " - " + PhaseName(Vegetative) + " - Day " + two;
    assert tail == " - vegetative - Day 2";
    assert ShowLog(name, Vegetative, 2) == name + tail;
  }

  lemma ExampleThirdDay(s: seq<Log>)
    requires |s| == 4 && UniqueIds(s)
    requires s[0].cycle == s[1].cycle == s[2].cycle && s[3].cycle.id != s[0].cycle.id
    requires s[0].phase == Vegetative && s[1].phase == Bloom && s[2].phase == Vegetative
    requires s[0].date == s[1].date == s[2].date && s[0].id < s[1].id < s[2].id
    ensures Stored(s, s[2]) && DayInPhase(s, s[2]) == 2
  {
    DayInPhaseCountsEarlierLogs(s, s[2]);
    var e := EarlierInSeries(s[2]);
    assert Filter(s[3..], e) == [];
    assert Filter(s[2..], e) == [];
    assert Filter(s[1..], e) == [];
    assert Filter(s, e) == [s[0]];
  }
}

=== FILE: prefill.dfy ===
/**
 Creating the next log of a cycle from the previous one: `create_log`
 takes the cycle's last log in the default order and builds an
 `initial_data` dictionary from it, and `fill_log_without_prompt` creates a
 log of the cycle from such a dictionary, reading each column's key and
 storing `None` where the key is missing.
 */
module Prefill {
  import opened Options
  import opened Models
  import opened Seqs
  import opened LogOrdering

  /** A value of the `initial_data` dictionary. */
  datatype Value = Null | Num(x: real) | Whole(n: int) | Text(s: string) | Flag(b: bool)

  /** The keys of the `initial_data` dictionary, one per log column. */
  datatype Key =
    | PhaseKey | TemperatureDayKey | TemperatureNightKey
    | HumidityDayKey | HumidityNightKey | PhKey | EcKey | IrrigationKey
    | LightHeightKey | LightPowerKey | CalibrationKey | CarbonDioxideKey
    | CommentKey | FeaturedImageKey

  /** The dictionary key as it is spelt in the source, which is the column's name. */
  function KeyName(k: Key): string {
    match k
    case PhaseKey => "phase"
    case TemperatureDayKey => "temperature_day"
    case TemperatureNightKey => "temperature_night"
    case HumidityDayKey => "humidity_day"
    case HumidityNightKey => "humidity_night"
    case PhKey => "ph"
    case EcKey => "ec"
    case IrrigationKey => "irrigation"
    case LightHeightKey => "light_height"
    case LightPowerKey => "light_power"
    case CalibrationKey => "calibration"
    case CarbonDioxideKey => "carbon_dioxide"
    case CommentKey => "comment"
    case FeaturedImageKey => "featured_image"
  }

  /** Different keys are spelt differently, so a map keyed by `Key` is the
      string-keyed dictionary of the source. */
  lemma KeyNamesDistinct(a: Key, b: Key)
    ensures KeyName(a) == KeyName(b) <==> a == b
  {
  }

  type InitialData = map<Key, Value>

  /** The reason creating a log fails. */
  datatype FillError =
    | PhaseMissing  // `phase` is a NOT NULL column

  /** The phase choice a stored phase string names. */
  function ParsePhase(s: string): (p: Option<Phase>)
    ensures forall q :: p == Some(q) <==> s == PhaseName(q)
  {
    if s == "seedling" then Some(Seedling)
    else if s == "vegetative" then Some(Vegetative)
    else if s == "bloom" then Some(Bloom)
    else None
  }

  /** `initial_data.get(key)` for a float column; an int is stored as a float. */
  function RealAt(d: InitialData, key: Key): Option<real> {
    if key !in d then None
    else match d[key]
      case Num(x) => Some(x)
      case Whole(n) => Some(n as real)
      case _ => None
  }

  /** `initial_data.get(key)` for an integer column. */
  function IntAt(d: InitialData, key: Key): Option<int> {
    if key in d && d[key].Whole? then Some(d[key].n) else None
  }

  /** `initial_data.get(key)` for a text column. */
  function TextAt(d: InitialData, key: Key): Option<string> {
    if key in d && d[key].Text? then Some(d[key].s) else None
  }

  /** `initial_data.get(key)` for a boolean column. */
  function FlagAt(d: InitialData, key: Key): Option<bool> {
    if key in d && d[key].Flag? then Some(d[key].b) else None
  }

  /** `initial_data.get('phase')`. */
  function PhaseAt(d: InitialData): Option<Phase> {
    match TextAt(d, PhaseKey)
    case Some(s) => ParsePhase(s)
    case None => None
  }

  /** What kind of value a key's column takes. */
  datatype Kind = RealColumn | IntColumn | TextColumn | FlagColumn | PhaseColumn | NotRead

  /** The column kind behind each key; the fill reads neither the image nor
      the carbon dioxide reading. */
  function KindOf(k: Key): Kind {
    match k
    case PhaseKey => PhaseColumn
    case TemperatureDayKey => RealColumn
    case TemperatureNightKey => RealColumn
    case HumidityDayKey => IntColumn
    case HumidityNightKey => IntColumn
    case PhKey => RealColumn
    case EcKey => RealColumn
    case IrrigationKey => TextColumn
    case LightHeightKey => IntColumn
    case LightPowerKey => IntColumn
    case CalibrationKey => FlagColumn
    case CarbonDioxideKey => NotRead
    case CommentKey => TextColumn
    case FeaturedImageKey => NotRead
  }

  /** A value suits a key's column: `None`, or a value of the column's type
      (an int suits a float column, and a phase is one of the choices). */
  predicate Fits(k: Key, v: Value) {
    match KindOf(k)
    case RealColumn => v.Null? || v.Num? || v.Whole?
    case IntColumn => v.Null? || v.Whole?
    case TextColumn => v.Null? || v.Text?
    case FlagColumn => v.Null? || v.Flag?
    case PhaseColumn => v.Null? || (v.Text? && ParsePhase(v.s).Some?)
    case NotRead => true
  }

  /** Every value the fill reads suits its column, so the only way creation
      can fail is a missing phase. */
  predicate FitsColumns(d: InitialData) {
    forall k :: k in d ==> Fits(k, d[k])
  }

  /** The largest id in the table, 0 when it is empty. */
  function MaxId(store: seq<Log>): (m: nat)
    ensures forall l :: l in store ==> l.id <= m
    ensures store != [] ==> exists l :: l in store && l.id == m
    decreases |store|
  {
    if store == [] then 0
    else
      var rest := MaxId(store[1..]);
      assert forall l :: l in store ==> l == store[0] || l in store[1..];
      if store[0].id >= rest then store[0].id else rest
  }

  /** The id the table's auto-increment key gives the next row. */
  function NextId(store: seq<Log>): (id: nat)
    ensures forall l :: l in store ==> l.id < id
  {
    MaxId(store) + 1
  }

  /** `fill_log_without_prompt`: a new log of `cycle`, dated `today`, whose
      columns come from `d`'s keys; the table with that log appended. */
  function FillLogWithoutPrompt(store: seq<Log>, cycle: Cycle, d: InitialData, today: int): (r: Result<seq<Log>, FillError>)
    requires FitsColumns(d)
    ensures r.Failure? <==> Absent(d, PhaseKey)
    ensures r.Success? ==> |r.value| == |store| + 1 && r.value[..|store|] == store
    ensures r.Success? ==> var n := r.value[|store|];
      && n.cycle == cycle && n.date == today
      && (forall l :: l in store ==> l.id < n.id)
      && n.featuredImage == None && n.carbonDioxide == None
    ensures r.Success? && UniqueIds(store) ==> UniqueIds(r.value)
  {
    match PhaseAt(d)
    case None => Failure(PhaseMissing)
    case Some(phase) =>
      var n := FilledLog(NextId(store), cycle, today, phase, d);
      var s := store + [n];
      assert s[..|store|] == store;
      assert forall i :: 0 <= i < |store| ==> s[i] in store;
      Success(s)
  }

  /** The row the fill creates: the dictionary's columns, with neither image nor carbon dioxide reading. */
  function FilledLog(id: nat, cycle: Cycle, today: int, phase: Phase, d: InitialData): Log {
    Log(
      id, cycle, today, phase,
      RealAt(d, TemperatureDayKey), RealAt(d, TemperatureNightKey),
      IntAt(d, HumidityDayKey), IntAt(d, HumidityNightKey),
      RealAt(d, PhKey), RealAt(d, EcKey),
      TextAt(d, IrrigationKey),
      IntAt(d, LightHeightKey), IntAt(d, LightPowerKey),
      None,
      FlagAt(d, CalibrationKey),
      None,
      TextAt(d, CommentKey))
  }

  /** The value a nullable float column puts in the dictionary. */
  function RealValue(o: Option<real>): Value {
    match o
    case Some(x) => Num(x)
    case None => Null
  }

  function IntValue(o: Option<int>): Value {
    match o
    case Some(n) => Whole(n)
    case None => Null
  }

  function TextValue(o: Option<string>): Value {
    match o
    case Some(s) => Text(s)
    case None => Null
  }

  /** The keys `create_log` puts in `initial_data`: every column but the image. */
  const PrefilledKeys: set<Key> := {
    PhaseKey, TemperatureDayKey, TemperatureNightKey, HumidityDayKey, HumidityNightKey,
    PhKey, EcKey, IrrigationKey, LightHeightKey, LightPowerKey,
    CalibrationKey, CarbonDioxideKey, CommentKey}

  /** The value `create_log` gives a key: the previous log's, except that
      calibration is reset to `False` and the comment to empty. */
  function PrefillValue(last: Log, k: Key): Value {
    match k
    case PhaseKey => Text(PhaseName(last.phase))
    case TemperatureDayKey => RealValue(last.temperatureDay)
    case TemperatureNightKey => RealValue(last.temperatureNight)
    case HumidityDayKey => IntValue(last.humidityDay)
    case HumidityNightKey => IntValue(last.humidityNight)
    case PhKey => RealValue(last.ph)
    case EcKey => RealValue(last.ec)
    case IrrigationKey => TextValue(last.irrigation)
    case LightHeightKey => IntValue(last.lightHeight)
    case LightPowerKey => IntValue(last.lightPower)
    case CalibrationKey => Flag(false)
    case CarbonDioxideKey => IntValue(last.carbonDioxide)
    case CommentKey => Text("")
    case FeaturedImageKey => Null
  }

  /** The `initial_data` `create_log` builds from the previous log. */
  function PrefillFrom(last: Log): InitialData {
    map k | k in PrefilledKeys :: PrefillValue(last, k)
  }

  /** The logs of one cycle. */
  function OfCycle(cycleId: nat): Log -> bool {
    (l: Log) => l.cycle.id == cycleId
  }

  /** `cycle.logs.last()`: the cycle's last log in the default order. */
  function LastLog(store: seq<Log>, cycle: Cycle): (r: Option<Log>)
    ensures r.None? <==> forall l :: l in store ==> l.cycle.id != cycle.id
    ensures r.Some? ==> r.value in store && r.value.cycle.id == cycle.id
    ensures r.Some? ==> forall l :: l in store && l.cycle.id == cycle.id ==> NotAfter(l, r.value)
  {
    var q := OrderBy(Filter(store, OfCycle(cycle.id)));
    CycleLogsOrdered(store, cycle.id);
    if q == [] then None else Some(q[|q| - 1])
  }

  /** The ordered logs of a cycle are exactly its stored logs, and the last one sorts after all the others. */
  lemma CycleLogsOrdered(store: seq<Log>, cycleId: nat)
    ensures var q := OrderBy(Filter(store, OfCycle(cycleId)));
      && (forall l :: l in q <==> l in store && l.cycle.id == cycleId)
      && (q != [] ==> forall l :: l in q ==> NotAfter(l, q[|q| - 1]))
  {
    var f := Filter(store, OfCycle(cycleId));
    assert forall l :: l in f <==> l in store && l.cycle.id == cycleId;
    var q := OrderBy(f);
    OrderByKeepsRows(f);
    if q != [] {
      LastIsGreatest(q);
    }
  }

  /** The initial data `create_log` prefills the next log with; `None` when
      the cycle has no log yet and an empty form is shown instead. */
  function CreateLogInitialData(store: seq<Log>, cycle: Cycle): (r: Option<InitialData>)
    ensures r.None? <==> forall l :: l in store ==> l.cycle.id != cycle.id
    ensures r.Some? ==> FitsColumns(r.value)
    ensures r.Some? ==> CalibrationKey in r.value && r.value[CalibrationKey] == Flag(false)
    ensures r.Some? ==> CommentKey in r.value && r.value[CommentKey] == Text("")
    ensures r.Some? ==> FeaturedImageKey !in r.value
  {
    match LastLog(store, cycle)
    case None => None
    case Some(last) =>
      PrefillFits(last);
      Some(PrefillFrom(last))
  }

  /** The prefilled dictionary suits the columns, forces calibration off and
      the comment empty, and carries no image. */
  lemma PrefillFits(last: Log)
    ensures var d := PrefillFrom(last);
      && FitsColumns(d)
      && CalibrationKey in d && d[CalibrationKey] == Flag(false)
      && CommentKey in d && d[CommentKey] == Text("")
      && FeaturedImageKey !in d
      && d.Keys == PrefilledKeys
  {
    var d := PrefillFrom(last);
    forall k | k in d
      ensures Fits(k, d[k])
    {
      PrefillValueFits(last, k);
    }
  }

  /** Each prefilled value suits its key's column. */
  lemma PrefillValueFits(last: Log, k: Key)
    ensures Fits(k, PrefillValue(last, k))
  {
    if k == PhaseKey {
      ParsePhaseName(last.phase);
    }
  }

  /** Parsing a phase's stored name gives the phase back. */
  lemma ParsePhaseName(p: Phase)
    ensures ParsePhase(PhaseName(p)) == Some(p)
  {
  }

  /** Creating a log from the prefill copies the previous log's phase and
      readings unchanged, turns calibration off, empties the comment, and
      leaves the image and the carbon dioxide reading (a key the fill does
      not read) empty. */
  lemma FillFromPrefillCopiesReadings(store: seq<Log>, cycle: Cycle, last: Log, today: int)
    ensures FitsColumns(PrefillFrom(last))
    ensures var r := FillLogWithoutPrompt(store, cycle, PrefillFrom(last), today);
      && r.Success?
      && var n := r.value[|store|];
      && n.cycle == cycle && n.date == today
      && n.phase == last.phase
      && n.temperatureDay == last.temperatureDay && n.temperatureNight == last.temperatureNight
      && n.humidityDay == last.humidityDay && n.humidityNight == last.humidityNight
      && n.ph == last.ph && n.ec == last.ec
      && n.irrigation == last.irrigation
      && n.lightHeight == last.lightHeight && n.lightPower == last.lightPower
      && n.calibration == Some(false)
      && n.comment == Some("")
      && n.featuredImage == None
      && n.carbonDioxide == None
  {
    PrefillFits(last);
    PrefillReadsBack(last);
    PrefillReadsBackCounts(last);
    PrefillReadsBackRest(last);
  }

  /** The dictionary `create_log` builds holds every column but the image,
      and reading it back gives the cycle's last log: its phase and readings,
      its carbon dioxide reading included, with calibration off and an empty
      comment. */
  lemma CreateLogCopiesLastLog(store: seq<Log>, cycle: Cycle)
    requires LastLog(store, cycle).Some?
    ensures CreateLogInitialData(store, cycle).Some?
    ensures var d, last := CreateLogInitialData(store, cycle).value, LastLog(store, cycle).value;
      && d.Keys == PrefilledKeys
      && PhaseAt(d) == Some(last.phase)
      && RealAt(d, TemperatureDayKey) == last.temperatureDay
      && RealAt(d, TemperatureNightKey) == last.temperatureNight
      && IntAt(d, HumidityDayKey) == last.humidityDay
      && IntAt(d, HumidityNightKey) == last.humidityNight
      && RealAt(d, PhKey) == last.ph && RealAt(d, EcKey) == last.ec
      && TextAt(d, IrrigationKey) == last.irrigation
      && IntAt(d, LightHeightKey) == last.lightHeight
      && IntAt(d, LightPowerKey) == last.lightPower
      && IntAt(d, CarbonDioxideKey) == last.carbonDioxide
      && CarbonDioxideKey in d && d[CarbonDioxideKey] == IntValue(last.carbonDioxide)
      && FlagAt(d, CalibrationKey) == Some(false)
      && TextAt(d, CommentKey) == Some("")
  {
    var last := LastLog(store, cycle).value;
    PrefillFits(last);
    PrefillReadsBack(last);
    PrefillReadsBackCounts(last);
    PrefillReadsBackRest(last);
  }

  /** Reading the prefilled dictionary back gives the previous log's phase and float readings. */
  lemma PrefillReadsBack(last: Log)
    ensures var d := PrefillFrom(last);
      && PhaseAt(d) == Some(last.phase)
      && RealAt(d, TemperatureDayKey) == last.temperatureDay
      && RealAt(d, TemperatureNightKey) == last.temperatureNight
      && RealAt(d, PhKey) == last.ph && RealAt(d, EcKey) == last.ec
  {
    ParsePhaseName(last.phase);
    PrefillEntry(last, PhaseKey);
    PrefillEntry(last, TemperatureDayKey);
    PrefillEntry(last, TemperatureNightKey);
    PrefillEntry(last, PhKey);
    PrefillEntry(last, EcKey);
  }

  /** Reading the prefilled dictionary back gives the previous log's integer
      readings, its carbon dioxide reading included. */
  lemma PrefillReadsBackCounts(last: Log)
    ensures var d := PrefillFrom(last);
      && IntAt(d, HumidityDayKey) == last.humidityDay
      && IntAt(d, HumidityNightKey) == last.humidityNight
      && IntAt(d, LightHeightKey) == last.lightHeight
      && IntAt(d, LightPowerKey) == last.lightPower
      && IntAt(d, CarbonDioxideKey) == last.carbonDioxide
      && CarbonDioxideKey in d && d[CarbonDioxideKey] == IntValue(last.carbonDioxide)
  {
    PrefillEntry(last, HumidityDayKey);
    PrefillEntry(last, HumidityNightKey);
    PrefillEntry(last, LightHeightKey);
    PrefillEntry(last, LightPowerKey);
    PrefillEntry(last, CarbonDioxideKey);
  }

  /** Reading the prefilled dictionary back gives the previous log's
      irrigation, calibration off and an empty comment. */
  lemma PrefillReadsBackRest(last: Log)
    ensures var d := PrefillFrom(last);
      && TextAt(d, IrrigationKey) == last.irrigation
      && FlagAt(d, CalibrationKey) == Some(false)
      && TextAt(d, CommentKey) == Some("")
  {
    PrefillEntry(last, IrrigationKey);
    PrefillEntry(last, CalibrationKey);
    PrefillEntry(last, CommentKey);
  }

  /** Every key but the image's is prefilled, with the key's value. */
  lemma PrefillEntry(last: Log, k: Key)
    requires k != FeaturedImageKey
    ensures k in PrefillFrom(last) && PrefillFrom(last)[k] == PrefillValue(last, k)
  {
  }

  /** When the new log is dated no earlier than the previous one, it becomes
      the cycle's last log, so the next prefill starts from it. */
  lemma FilledLogBecomesLast(store: seq<Log>, cycle: Cycle, today: int)
    requires LastLog(store, cycle).Some? && LastLog(store, cycle).value.date <= today
    ensures CreateLogInitialData(store, cycle).Some?
    ensures var r := FillLogWithoutPrompt(store, cycle, CreateLogInitialData(store, cycle).value, today);
      r.Success? && LastLog(r.value, cycle) == Some(r.value[|store|])
  {
    var last := LastLog(store, cycle).value;
    FillFromPrefillCopiesReadings(store, cycle, last, today);
    var r := FillLogWithoutPrompt(store, cycle, PrefillFrom(last), today);
    var n := r.value[|store|];
    assert r.value == store + [n];
    assert Before(last, n);
    forall l | l in store && l.cycle.id == cycle.id
      ensures Before(l, n)
    {
      NotAfterThenBefore(l, last, n);
    }
    AppendedGreatestBecomesLast(store, cycle, n);
  }

  /** A log of the cycle that sorts after all the cycle's stored logs is the last one once stored. */
  lemma AppendedGreatestBecomesLast(store: seq<Log>, cycle: Cycle, n: Log)
    requires n.cycle.id == cycle.id
    requires forall l :: l in store && l.cycle.id == cycle.id ==> Before(l, n)
    ensures LastLog(store + [n], cycle) == Some(n)
  {
  }

  /** A key that is missing, or holds `None`, leaves its column empty; in
      particular a missing `calibration` is stored as `None`, not as the
      column's default `False`. */
  lemma MissingKeysLeaveColumnsEmpty(store: seq<Log>, cycle: Cycle, d: InitialData, today: int)
    requires FitsColumns(d) && !Absent(d, PhaseKey)
    ensures var r := FillLogWithoutPrompt(store, cycle, d, today);
      && r.Success?
      && LeavesAbsentEmpty(d, r.value[|store|])
  {
    var r := FillLogWithoutPrompt(store, cycle, d, today);
    var n := FilledLog(NextId(store), cycle, today, PhaseAt(d).value, d);
    assert r.value[|store|] == n;
    FilledLogLeavesAbsentEmpty(NextId(store), cycle, today, PhaseAt(d).value, d);
  }

  /** A key that is present gives its column the key's value: the phase
      column the phase the text names, a float column the number (an int
      widened to a float), and every other column the value as it is. */
  lemma FillReadsEveryKey(store: seq<Log>, cycle: Cycle, d: InitialData, today: int)
    requires FitsColumns(d) && !Absent(d, PhaseKey)
    ensures var r := FillLogWithoutPrompt(store, cycle, d, today);
      && r.Success?
      && var n := r.value[|store|];
      && d[PhaseKey] == Text(PhaseName(n.phase))
      && ReadsReal(d, TemperatureDayKey, n.temperatureDay)
      && ReadsReal(d, TemperatureNightKey, n.temperatureNight)
      && ReadsInt(d, HumidityDayKey, n.humidityDay)
      && ReadsInt(d, HumidityNightKey, n.humidityNight)
      && ReadsReal(d, PhKey, n.ph) && ReadsReal(d, EcKey, n.ec)
      && ReadsText(d, IrrigationKey, n.irrigation)
      && ReadsInt(d, LightHeightKey, n.lightHeight)
      && ReadsInt(d, LightPowerKey, n.lightPower)
      && ReadsFlag(d, CalibrationKey, n.calibration)
      && ReadsText(d, CommentKey, n.comment)
  {
    var r := FillLogWithoutPrompt(store, cycle, d, today);
    assert Fits(PhaseKey, d[PhaseKey]);
    var phase := PhaseAt(d).value;
    var n := FilledLog(NextId(store), cycle, today, phase, d);
    assert r.value[|store|] == n;
  }

  /** The float column `o` holds what `d` has under `k`. */
  predicate ReadsReal(d: InitialData, k: Key, o: Option<real>) {
    && (Absent(d, k) ==> o == None)
    && (k in d && d[k].Num? ==> o == Some(d[k].x))
    && (k in d && d[k].Whole? ==> o == Some(d[k].n as real))
  }

  /** The integer column `o` holds what `d` has under `k`. */
  predicate ReadsInt(d: InitialData, k: Key, o: Option<int>) {
    && (Absent(d, k) ==> o == None)
    && (k in d && d[k].Whole? ==> o == Some(d[k].n))
  }

  /** The text column `o` holds what `d` has under `k`. */
  predicate ReadsText(d: InitialData, k: Key, o: Option<string>) {
    && (Absent(d, k) ==> o == None)
    && (k in d && d[k].Text? ==> o == Some(d[k].s))
  }

  /** The boolean column `o` holds what `d` has under `k`. */
  predicate ReadsFlag(d: InitialData, k: Key, o: Option<bool>) {
    && (Absent(d, k) ==> o == None)
    && (k in d && d[k].Flag? ==> o == Some(d[k].b))
  }

  /** Each column the fill reads is empty exactly when its key is absent. */
  predicate LeavesAbsentEmpty(d: InitialData, n: Log) {
    && (Absent(d, TemperatureDayKey) <==> n.temperatureDay == None)
    && (Absent(d, TemperatureNightKey) <==> n.temperatureNight == None)
    && (Absent(d, HumidityDayKey) <==> n.humidityDay == None)
    && (Absent(d, HumidityNightKey) <==> n.humidityNight == None)
    && (Absent(d, PhKey) <==> n.ph == None)
    && (Absent(d, EcKey) <==> n.ec == None)
    && (Absent(d, IrrigationKey) <==> n.irrigation == None)
    && (Absent(d, LightHeightKey) <==> n.lightHeight == None)
    && (Absent(d, LightPowerKey) <==> n.lightPower == None)
    && (Absent(d, CalibrationKey) <==> n.calibration == None)
    && (Absent(d, CommentKey) <==> n.comment == None)
  }

  lemma FilledLogLeavesAbsentEmpty(id: nat, cycle: Cycle, today: int, phase: Phase, d: InitialData)
    requires FitsColumns(d)
    ensures LeavesAbsentEmpty(d, FilledLog(id, cycle, today, phase, d))
  {
    RealReadEmpty(d, TemperatureDayKey);
    RealReadEmpty(d, TemperatureNightKey);
    IntReadEmpty(d, HumidityDayKey);
    IntReadEmpty(d, HumidityNightKey);
    RealReadEmpty(d, PhKey);
    RealReadEmpty(d, EcKey);
    TextReadEmpty(d, IrrigationKey);
    IntReadEmpty(d, LightHeightKey);
    IntReadEmpty(d, LightPowerKey);
    FlagReadEmpty(d, CalibrationKey);
    TextReadEmpty(d, CommentKey);
  }

  lemma RealReadEmpty(d: InitialData, k: Key)
    requires FitsColumns(d) && KindOf(k) == RealColumn
    ensures RealAt(d, k).None? <==> Absent(d, k)
  {
    if k in d {
      assert Fits(k, d[k]);
    }
  }

  lemma IntReadEmpty(d: InitialData, k: Key)
    requires FitsColumns(d) && KindOf(k) == IntColumn
    ensures IntAt(d, k).None? <==> Absent(d, k)
  {
    if k in d {
      assert Fits(k, d[k]);
    }
  }

  lemma TextReadEmpty(d: InitialData, k: Key)
    requires FitsColumns(d) && KindOf(k) == TextColumn
    ensures TextAt(d, k).None? <==> Absent(d, k)
  {
    if k in d {
      assert Fits(k, d[k]);
    }
  }

  lemma FlagReadEmpty(d: InitialData, k: Key)
    requires FitsColumns(d) && KindOf(k) == FlagColumn
    ensures FlagAt(d, k).None? <==> Absent(d, k)
  {
    if k in d {
      assert Fits(k, d[k]);
    }
  }

  /** A key is missing from the dictionary or holds `None`. */
  predicate Absent(d: InitialData, k: Key) {
    k !in d || d[k].Null?
  }
}

=== FILE: seqs.dfy ===
/**
 Filtering a sequence by a predicate: the in-memory counterpart of a
 `QuerySet.filter(...)` over the rows of one table.
 */
module Seqs {

  /** The elements of `s` that satisfy `p`, in their original order. */
  function Filter<T(!new)>(s: seq<T>, p: T -> bool): (r: seq<T>)
    ensures |r| <= |s|
    ensures forall x :: x in r <==> x in s && p(x)
    ensures forall i :: 0 <= i < |r| ==> p(r[i])
    decreases |s|
  {
    if s == [] then []
    else (if p(s[0]) then [s[0]] else []) + Filter(s[1..], p)
  }

  /** Filtering distributes over concatenation. */
  lemma {:induction false} FilterConcat<T(!new)>(a: seq<T>, b: seq<T>, p: T -> bool)
    ensures Filter(a + b, p) == Filter(a, p) + Filter(b, p)
    decreases |a|
  {
    if a == [] {
      assert a + b == b;
    } else {
      assert (a + b)[0] == a[0];
      assert (a + b)[1..] == a[1..] + b;
      FilterConcat(a[1..], b, p);
    }
  }

  /** Rearranging the input rearranges the output and changes nothing else. */
  lemma {:induction false} FilterPermutation<T(!new)>(s: seq<T>, t: seq<T>, p: T -> bool)
    requires multiset(s) == multiset(t)
    ensures multiset(Filter(s, p)) == multiset(Filter(t, p))
    decreases |s|
  {
    if s == [] {
      assert |t| == |multiset(t)| == 0;
    } else {
      var x := s[0];
      assert x in multiset(t);
      var k :| 0 <= k < |t| && t[k] == x;
      var rest := t[..k] + t[k+1..];
      assert t == t[..k] + ([x] + t[k+1..]);
      assert multiset(t) == multiset(rest) + multiset{x};
      assert s == [x] + s[1..];
      assert multiset(s) == multiset{x} + multiset(s[1..]);
      assert multiset(s[1..]) == multiset(s) - multiset{x};
      assert multiset(rest) == multiset(t) - multiset{x};
      FilterPermutation(s[1..], rest, p);
      FilterConcat(t[..k], [x] + t[k+1..], p);
      FilterConcat([x], t[k+1..], p);
      FilterConcat(t[..k], t[k+1..], p);
    }
  }

  /** Filtering by a stronger predicate after a weaker one is filtering by the stronger one. */
  lemma {:induction false} FilterNarrows<T(!new)>(s: seq<T>, p: T -> bool, q: T -> bool)
    requires forall x :: q(x) ==> p(x)
    ensures Filter(Filter(s, p), q) == Filter(s, q)
    decreases |s|
  {
    if s != [] {
      var head := if p(s[0]) then [s[0]] else [];
      assert Filter(s, p) == head + Filter(s[1..], p);
      FilterConcat(head, Filter(s[1..], p), q);
      FilterNarrows(s[1..], p, q);
      assert Filter(head, q) == if q(s[0]) then [s[0]] else [];
    }
  }

  /** A filter that no element passes leaves nothing. */
  lemma FilterKeepsNone<T(!new)>(s: seq<T>, p: T -> bool)
    requires forall i :: 0 <= i < |s| ==> !p(s[i])
    ensures Filter(s, p) == []
  {
  }

  /** An element that fails the predicate can be added anywhere without changing the result. */
  lemma FilterSkips<T(!new)>(a: seq<T>, b: seq<T>, x: T, p: T -> bool)
    requires !p(x)
    ensures Filter(a + [x] + b, p) == Filter(a + b, p)
  {
    var ax := a + [x];
    FilterConcat(ax, b, p);
    FilterConcat(a, [x], p);
    assert Filter([x], p) == [];
    assert Filter(ax, p) == Filter(a, p);
    FilterConcat(a, b, p);
  }

  /** When exactly the first `i` elements pass, the filter keeps that prefix. */
  lemma {:induction false} FilterPrefix<T(!new)>(s: seq<T>, i: nat, p: T -> bool)
    requires i <= |s|
    requires forall j :: 0 <= j < i ==> p(s[j])
    requires forall j :: i <= j < |s| ==> !p(s[j])
    ensures Filter(s, p) == s[..i]
    decreases |s|
  {
    if i == 0 {
      FilterKeepsNone(s, p);
    } else {
      FilterPrefix(s[1..], i - 1, p);
      assert s[..i] == [s[0]] + s[1..][..i - 1];
    }
  }
}
